=== FILE: README.md ===
# SharpIpp type mapping and client decisions, in Dafny

This project models three parts of SharpIpp, a C# client for the Internet
Printing Protocol (IPP):

- the scalar conversion table that `TypesProfile.CreateMaps` registers, one
  function per converter. It covers epoch seconds and `DateTime`, the
  integer-to-enumeration casts with the 16-bit narrowing for operation codes,
  the `NoValue` defaults, language-tagged strings, and the keyword-backed
  enumerations with their `Unsupported` fall-back;
- the four mappings each registered by the Cancel-Job profile (section 3.3.3
  of RFC 2911) and the Pause-Printer profile (section 3.2.7 of RFC 2911);
- the decision logic of `SharpIppClient`. This covers how a printer URI
  becomes the HTTP endpoint, which HTTP failures still have their body
  decoded, what `SendAsync` returns or raises, the checks the typed send
  makes before anything goes on the wire, and how `Construct` and
  `ConstructIppRequest` report failures.

Modules: `Wrappers` (Option), `Protocol` (shared records: machine integers,
URI, version, operation code, attributes, request/response messages, domain
requests/responses, and the `Mapper` record of collaborators),
`TypesProfile`, `CancelJobProfile`, `PausePrinterProfile`, `SharpIppClient`.

Some helpers the profiles and the client call are not part of this model:
the attribute helpers, the common interface maps, default constructors,
the codec, the HTTP client, `IsSuccessfulStatusCode` and the case helpers.
They are function-valued fields of the records `Protocol.Mapper`,
`SharpIppClient.Transport` and `TypesProfile.CaseConversion`, passed in as
parameters. A property that needs something of them names it as a predicate
in its `requires`, or as the condition of an `ensures`, for example `KeepsOperation`, `AppendsOperationAttributes`
or `FillsResponse`.

Behaviour of the code worth noting:

- `ipps://host` without a port becomes `https://host:631`, not port 443. The
  default port is chosen from the original scheme, and only `https` gets
  443. (Port 631 is also what RFC 7472 assigns to IPP over HTTPS.)
- An integer with no named enumeration value is cast anyway. It is not a
  decode error.
- After a plausible HTTP failure (100, 401, 403, 426), a body that fails to
  decode or that carries a failing IPP status raises the original HTTP
  exception. The IPP-level error is discarded. The IPP information prevails
  only when the IPP status is successful.
- `DateTime -> int` keeps only the seconds component. See Findings.

## Model

| member | source | states |
|---|---|---|
| TypesProfile.IdentityMap | SharpIpp/Mapping/Profiles/TypesProfile.cs:13-19 | the identity maps return their argument unchanged |
| TypesProfile.IntToDateTime | SharpIpp/Mapping/Profiles/TypesProfile.cs:21-22 | the result is a valid DateTime on a whole second, and it is the epoch exactly when the input is 0 |
| TypesProfile.EpochIsZero | SharpIpp/Mapping/Profiles/TypesProfile.cs:21-23 | 0 maps to 1970-01-01T00:00:00, and that instant maps back to 0 |
| TypesProfile.IntToDateTimeInjective | SharpIpp/Mapping/Profiles/TypesProfile.cs:22 | distinct integers give distinct instants (both directions) |
| TypesProfile.SecondsComponent | SharpIpp/Mapping/Profiles/TypesProfile.cs:23 | TimeSpan.Seconds lies in -59..59 and has the sign of the span |
| TypesProfile.DateTimeToInt | SharpIpp/Mapping/Profiles/TypesProfile.cs:23 | the registered DateTime -> int is always in -59..59, non-negative at or after the epoch and non-positive at or before it |
| TypesProfile.DateTimeToIntIsRemainderOfMinute | SharpIpp/Mapping/Profiles/TypesProfile.cs:23 | the registered result is the truncated remainder by 60 of the whole seconds since the epoch |
| TypesProfile.DateTimeRoundTripAsWritten | SharpIpp/Mapping/Profiles/TypesProfile.cs:22-23 | int -> DateTime -> int gives the truncated remainder of n by 60, which equals n exactly when -59 <= n <= 59 |
| TypesProfile.OneMinuteAfterEpochBecomesZero | SharpIpp/Mapping/Profiles/TypesProfile.cs:22-23 | 60 maps to 1970-01-01T00:01:00, which maps back to 0 as written and to 60 as intended |
| TypesProfile.DateTimeToEpochSeconds | SharpIpp/Mapping/Profiles/TypesProfile.cs:23 | the intended conversion: whole seconds since the epoch, with the sign of the span |
| TypesProfile.EpochSecondsRoundTrip | SharpIpp/Mapping/Profiles/TypesProfile.cs:22-23 | the intended conversion undoes int -> DateTime for every int |
| TypesProfile.ToInt16 | SharpIpp/Mapping/Profiles/TypesProfile.cs:24 | the short cast agrees with its input modulo 2^16 and keeps every value that fits in 16 bits |
| TypesProfile.IntToIppOperation | SharpIpp/Mapping/Profiles/TypesProfile.cs:24 | the operation code is the input wrapped to 16 bits, two's complement |
| TypesProfile.IppOperationDependsOnLow16Bits | SharpIpp/Mapping/Profiles/TypesProfile.cs:24 | two ints give the same operation iff their low 16 bits agree |
| TypesProfile.IppOperationWrapExamples | SharpIpp/Mapping/Profiles/TypesProfile.cs:24 | 0x10008 is Cancel-Job, 0x10 is Pause-Printer, and 0xFFFF is operation code -1 |
| TypesProfile.CastToEnum | SharpIpp/Mapping/Profiles/TypesProfile.cs:25-32 | the casts to Finishings, IppStatusCode, JobState, Orientation, PrinterState, PrintQuality, ResolutionUnit and PrinterType never fail and keep the numeric value |
| TypesProfile.CastToEnumRoundTrip | SharpIpp/Mapping/Profiles/TypesProfile.cs:25-32 | each cast is a bijection with (int)e, undefined codes included |
| TypesProfile.NoValueToInt | SharpIpp/Mapping/Profiles/TypesProfile.cs:34 | NoValue maps to the int 0 |
| TypesProfile.NoValueToJobState | SharpIpp/Mapping/Profiles/TypesProfile.cs:35 | NoValue maps to JobState 0, which names no job state of section 4.3.7 of RFC 2911 |
| TypesProfile.StringWithLanguageToString | SharpIpp/Mapping/Profiles/TypesProfile.cs:39 | the plain string is the value, without the language |
| TypesProfile.StringToStringWithLanguage | SharpIpp/Mapping/Profiles/TypesProfile.cs:40 | a plain string always maps to null |
| TypesProfile.LanguageIsDropped | SharpIpp/Mapping/Profiles/TypesProfile.cs:39-40 | two tagged strings give the same string iff their values agree, whatever their languages; the reverse direction never attaches one |
| TypesProfile.FindVariant | SharpIpp/Mapping/Profiles/TypesProfile.cs:64 | the case-sensitive name lookup finds the first position holding the name, or reports that no position holds it |
| TypesProfile.UnsupportedOf | SharpIpp/Mapping/Profiles/TypesProfile.cs:42-59 | every registered enumeration has an Unsupported variant to fall back to |
| TypesProfile.KeywordToEnum | SharpIpp/Mapping/Profiles/TypesProfile.cs:62-64 | the result is the variant named by the camel-case form of the keyword when there is one, and the default otherwise |
| TypesProfile.DecodeKeyword | SharpIpp/Mapping/Profiles/TypesProfile.cs:42-64 | the registered string -> T never fails; the result is Unsupported iff the camel-case form names no variant or names Unsupported, and otherwise it is the variant of that name |
| TypesProfile.EnumToKeyword | SharpIpp/Mapping/Profiles/TypesProfile.cs:65 | the keyword of a variant decodes back to that variant whenever the two case helpers are inverse on its name |
| TypesProfile.KeywordRoundTrip | SharpIpp/Mapping/Profiles/TypesProfile.cs:64-65 | decode(encode(v)) = v whenever the two case helpers are inverse on v's name |
| TypesProfile.EnumToKeywordInjective | SharpIpp/Mapping/Profiles/TypesProfile.cs:65 | under that assumption for every variant, distinct variants get distinct keywords |
| CancelJobProfile.RequestToMessage | SharpIpp/Mapping/Profiles/CancelJobProfile.cs:13-22 | the message's operation is Cancel-Job, and the request's own attributes follow those of the fresh message |
| CancelJobProfile.RequestAttributeOrder | SharpIpp/Mapping/Profiles/CancelJobProfile.cs:18-20 | the order is fresh-message attributes, then the request's own (none if null), then what the common job-request map appends |
| CancelJobProfile.MessageToRequest | SharpIpp/Mapping/Profiles/CancelJobProfile.cs:24-32 | OperationAttributes is rebuilt from the dictionary of the message's operation attributes; with a common job-request map that sets version and request-id, the result is the fresh CancelJobRequest holding the message's version and request-id and those rebuilt OperationAttributes |
| CancelJobProfile.MessageToRequestUsesDictionary | SharpIpp/Mapping/Profiles/CancelJobProfile.cs:26-30 | messages with equal dictionaries give equal OperationAttributes, and a request with null OperationAttributes comes back non-null |
| CancelJobProfile.ResponseMessageToResponse | SharpIpp/Mapping/Profiles/CancelJobProfile.cs:34-39 | with a common map that sets version, status and request-id and adds the sections, the response holds the wire response's version, status and request-id, and the fresh CancelJobResponse's sections followed by the wire response's |
| CancelJobProfile.ResponseToResponseMessage | SharpIpp/Mapping/Profiles/CancelJobProfile.cs:41-46 | with such a common map, the wire message holds the response's version, status and request-id, and the fresh message's sections followed by the response's |
| CancelJobProfile.ResponseRoundTrip | SharpIpp/Mapping/Profiles/CancelJobProfile.cs:34-46 | with such common maps and fresh objects without sections, the two response mappings are inverse to each other |
| PausePrinterProfile.NewPausePrinterResponse | SharpIpp/Models/PausePrinterResponse.cs:13-19 | a fresh PausePrinterResponse has version 1.1, status successful-ok, request-id 0 and no sections |
| PausePrinterProfile.RequestToMessage | SharpIpp/Mapping/Profiles/PausePrinterProfile.cs:12-17 | the message's operation is Pause-Printer, and the fresh message's attributes stay first |
| PausePrinterProfile.RequestAddsNoAttributes | SharpIpp/Mapping/Profiles/PausePrinterProfile.cs:14-15 | the profile adds no operation attributes; only the common printer-request map appends |
| PausePrinterProfile.OperationsDiffer | SharpIpp/Mapping/Profiles/PausePrinterProfile.cs:14 | a Pause-Printer message never equals a Cancel-Job message |
| PausePrinterProfile.MessageToRequest | SharpIpp/Mapping/Profiles/PausePrinterProfile.cs:19-24 | the result is the fresh PausePrinterRequest filled by the common printer-request map: with a map that sets version and request-id, it is the fresh request holding the message's version and request-id, and nothing else of the message |
| PausePrinterProfile.OperationAttributesComeFromCommonMap | SharpIpp/Mapping/Profiles/PausePrinterProfile.cs:21-22 | the profile reads no operation attributes itself: whatever the common map reads of the message becomes the request's OperationAttributes, and the rest of the fresh request is kept |
| PausePrinterProfile.ResponseMessageToResponse | SharpIpp/Mapping/Profiles/PausePrinterProfile.cs:26-31 | with a common map that sets version, status and request-id and adds the sections, the response holds exactly the wire response's four members, because a fresh PausePrinterResponse has no sections |
| PausePrinterProfile.ResponseDefaultsShowThrough | SharpIpp/Mapping/Profiles/PausePrinterProfile.cs:28-29 | a common map that fills nothing leaves version 1.1, status 0, request-id 0 and no sections |
| PausePrinterProfile.ResponseToResponseMessage | SharpIpp/Mapping/Profiles/PausePrinterProfile.cs:33-38 | with such a common map, the wire message holds the response's version, status and request-id, and the fresh message's sections followed by the response's |
| PausePrinterProfile.ResponseRoundTrip | SharpIpp/Mapping/Profiles/PausePrinterProfile.cs:26-38 | with such common maps and a fresh IppResponseMessage without sections, the two response mappings are inverse to each other |
| SharpIppClient.IsPlausible | SharpIpp/SharpIppClient.cs:59-64 | the plausible statuses are exactly 100, 401, 403 and 426, and none of them is a success |
| SharpIppClient.EqualsIgnoreCase | SharpIpp/SharpIppClient.cs:177-181 | two strings are equal ignoring case iff they have the same length and agree letter by letter after upper-casing |
| SharpIppClient.IsSecured | SharpIpp/SharpIppClient.cs:177-178 | a scheme is secured iff it reads HTTPS or IPPS once its letters are upper-cased |
| SharpIppClient.DefaultPort | SharpIpp/SharpIppClient.cs:179-183 | 443 for https, 80 for http, 631 for any other scheme |
| SharpIppClient.GetHttpRequestMessage | SharpIpp/SharpIppClient.cs:175-189 | a POST whose scheme is https iff the input's is https or ipps (any case); host, path and query are copied; an explicit port is kept, otherwise the default port; the port is never -1 |
| SharpIppClient.GetHttpRequestMessageIdempotent | SharpIpp/SharpIppClient.cs:175-189 | normalising a normalised endpoint changes nothing |
| SharpIppClient.GetHttpRequestMessageExamples | SharpIpp/SharpIppClient.cs:177-188 | ipp://127.0.0.1:631/ becomes http://127.0.0.1:631/, and ipps://printer/ipp/print becomes https://printer:631/ipp/print |
| SharpIppClient.IppHttpRequest | SharpIpp/SharpIppClient.cs:72-80 | the request sent is a POST to the normalised endpoint, carrying the encoded message as application/ipp |
| SharpIppClient.SendOutcome | SharpIpp/SharpIppClient.cs:67-125 | the outcome of a send: an encoding error propagates, and a response is returned only if it is the decoded body of an HTTP success whose IPP status is successful |
| SharpIppClient.SendAsync | SharpIpp/SharpIppClient.cs:67-125 | the outcome table: encode and transport errors propagate; a non-plausible HTTP failure is rethrown without decoding the body; on HTTP success the decoded response is returned, a failing IPP status raises IppResponseException with that response, and a decode error propagates; after a plausible failure the HTTP exception replaces any IPP error and wraps a successful response; a value is returned only if HTTP and IPP both succeed; the outcome is SendOutcome's |
| SharpIppClient.SendTyped | SharpIpp/SharpIppClient.cs:135-149 | a failure to build the request comes first; missing OperationAttributes or PrinterUri then raises before anything is sent; otherwise the encoded message is sent to the PrinterUri's endpoint, a SendAsync exception propagates, and a returned response is passed to the response constructor, whose outcome is the result |
| SharpIppClient.ConstructIppRequest | SharpIpp/SharpIppClient.cs:151-160 | a null request raises ArgumentException with the message "request"; otherwise the mapper's result |
| SharpIppClient.Construct | SharpIpp/SharpIppClient.cs:162-173 | the mapped response is returned unchanged; any mapping failure becomes an IppResponseException carrying the original exception and the response |

## Findings

| source | as written | input that shows it | evidently intended | confidence | as-written member | corrected member |
|---|---|---|---|---|---|---|
| SharpIpp/Mapping/Profiles/TypesProfile.cs:23 | `(src - unixStartTime).Seconds`: only the seconds component (-59..59) of the span since the epoch | 60 maps to 1970-01-01T00:01:00, which maps back to 0 | the whole seconds since the epoch (TotalSeconds, truncated), so that int -> DateTime -> int is the identity | high; not executed | TypesProfile.OneMinuteAfterEpochBecomesZero | TypesProfile.EpochSecondsRoundTrip |

`TypesProfile.DateTimeToInt` models the converter as written.
`TypesProfile.DateTimeToEpochSeconds` is the corrected definition.
`TypesProfile.DateTimeToIntIsRemainderOfMinute` relates the two.

## Left out

- The binary IPP codec (`WriteIppRequestAsync`, `ReadIppResponseAsync`): IppProtocol is not part of this model. Encoding and decoding are the `writeIppRequest` and `readIppResponse` fields of `SharpIppClient.Transport`, and each returns bytes, a message or an exception.
- HTTP transport and streams: `HttpClient.SendAsync`, the MemoryStream, `Seek`, `ReadAsStreamAsync`, cancellation tokens and `Dispose` (SharpIpp/SharpIppClient.cs:72-82, 104, 127-133). The transport is the `send` field of `Transport`. Disposal and cancellation are I/O concerns.
- The client's constructors and the `Lazy<IMapper>` singleton built by `MapperFactory` through reflection (`FillFromAssembly`). These involve concurrency and reflection. The mapper is an explicit `Protocol.Mapper` value.
- `string -> IppVersion` (TypesProfile.cs:33): the `IppVersion(string)` constructor is not part of this model.
- `ConvertDashToCamelCase` and `ConvertCamelCaseToDash` are not part of this model. They are the fields of `TypesProfile.CaseConversion`. The keyword round trip assumes that they are inverse on the variant's name.
- The eighteen `ConfigureKeyword` registrations (SharpIpp/Mapping/Profiles/TypesProfile.cs:42-59) all run the same code, so they are modelled once over a generic `KeywordEnum`. Which enumeration a `KeywordEnum` stands for is not represented, because their declarations are not part of this model.
- `Enum.TryParse` quirks (numeric strings, comma-separated flag lists, surrounding white space): library behaviour. The parse is a case-sensitive lookup of the variant names.
- The declarations of the enumerations are not part of this model. Their variant names are a parameter (`KeywordEnum.variants`). The eight cast enumerations are taken to have the C# default underlying type `int`.
- `DateTimeKind` and time zones. A `DateTime` is a count of ticks, and `DateTimeOffset` has only its identity map.
- Non-ASCII case mapping in `OrdinalIgnoreCase`: URI schemes contain only ASCII letters, digits, `+`, `-` and `.`.
- SharpIppClient.GetHttpRequestMessage: the printer URI is taken to be absolute, because the `Uri` record has no relative form. For a relative `System.Uri`, reading `printer.Scheme` (SharpIpp/SharpIppClient.cs:177) throws `InvalidOperationException` before the request is encoded. `SendAsync`, `SendOutcome` and `SendTyped` do not model that exception.
- The string form that `UriBuilder` renders: a URI is a record of scheme, host, port, path and query.
- `GetIppAttributes`, `ToIppDictionary`, `CancelJobOperationAttributes.Create`, the common IIppJobRequest, IIppPrinterRequest and IIppResponseMessage maps, and the default constructors of IppRequestMessage, IppResponseMessage, CancelJobRequest, PausePrinterRequest and CancelJobResponse are not part of this model. They are fields of `Protocol.Mapper`.
- `IsSuccessfulStatusCode` is not part of this model. It is the `isSuccessfulStatusCode` field of `Transport`.
- The text of `HttpRequestException.Message`: the wrapping IppResponseException carries it as `MessageOf(httpException)`.
- CreateJobResponse and PrintUriRequest (the latter marked obsolete): plain data classes with no behaviour that the modelled code uses.
- The test file SharpIpp.Tests/ConstructTests.cs is a snapshot harness. Its Cancel-Job printer URI `ipp://127.0.0.1:631` appears in `SharpIppClient.GetHttpRequestMessageExamples`.
- CancelJobProfile.RequestToMessage: the Cancel-Job operation code and the attribute order are proved only for common maps that satisfy `KeepsOperation` and `AppendOnly`, because the common job-request map is not part of this model.
- CancelJobProfile.MessageToRequest: the result is proved only for a common job-request map that satisfies `FillsRequest`, and the rebuilt OperationAttributes only for one that satisfies `KeepsRequestOperationAttributes`, for the same reason.
- CancelJobProfile.ResponseMessageToResponse: the result is proved only for a common map that sets version, status and request-id and adds the sections (`FillsResponse`). The same holds for `CancelJobProfile.ResponseToResponseMessage` (`FillsResponseMessage`) and both Pause-Printer response mappings. The classes of CancelJobResponse and IppResponseMessage are not part of this model, so their empty initial Sections is a `requires` of the round-trip lemmas.
- PausePrinterProfile.RequestToMessage: the Pause-Printer operation code is proved only for a common map that satisfies `KeepsOperation`.
- PausePrinterProfile.MessageToRequest: the result is proved only for a common printer-request map that satisfies `FillsRequest` (or `FillsRequestReading`, in `PausePrinterProfile.OperationAttributesComeFromCommonMap`). A real common map that reads printer-uri from the message does not satisfy `KeepsRequestOperationAttributes`, so the clause that uses that predicate speaks only of such a map.

=== FILE: cancel_job_profile.dfy ===
/**
 * The four mappings CancelJobProfile registers for Cancel-Job (section 3.3.3 of
 * RFC 2911). Each builds a fresh destination and hands it, with the source, to
 * a common interface map of the mapper; those maps are parameters here, and
 * what a property needs of them is stated as a predicate of Protocol.
 */
module CancelJobProfile {
  import opened Wrappers
  import opened Protocol

  /** The IPP attributes of src.OperationAttributes, or none when it is null. */
  function ProfileAttributes(src: IppRequest, mapper: Mapper): seq<IppAttribute>
  {
    match src.operationAttributes
    case None => []
    case Some(a) => mapper.getIppAttributes(a)
  }

  /**
   * CancelJobRequest -> IppRequestMessage: a fresh message with operation
   * Cancel-Job, the request's own operation attributes appended when present,
   * then the common IIppJobRequest map on that same message.
   */
  function RequestToMessage(src: IppRequest, mapper: Mapper): (dst: IppRequestMessage)
    ensures KeepsOperation(mapper.jobRequestToMessage) ==> dst.operation == CancelJob
    ensures AppendOnly(mapper.jobRequestToMessage) ==>
      mapper.newRequestMessage.operationAttributes + ProfileAttributes(src, mapper) <= dst.operationAttributes
  {
    var blank := mapper.newRequestMessage.(operation := CancelJob);
    var staged :=
      if src.operationAttributes != None
      then blank.(operationAttributes := blank.operationAttributes + mapper.getIppAttributes(src.operationAttributes.value))
      else blank;
    mapper.jobRequestToMessage(src, staged)
  }

  /**
   * The order of the operation attributes: those of the fresh message, then the
   * request's own (none when its OperationAttributes is null), then whatever the
   * common map appends.
   */
  lemma RequestAttributeOrder(src: IppRequest, mapper: Mapper, extra: IppRequest -> seq<IppAttribute>)
    requires AppendsOperationAttributes(mapper.jobRequestToMessage, extra)
    ensures src.operationAttributes.None? ==>
      RequestToMessage(src, mapper).operationAttributes == mapper.newRequestMessage.operationAttributes + extra(src)
    ensures src.operationAttributes.Some? ==>
      RequestToMessage(src, mapper).operationAttributes
        == mapper.newRequestMessage.operationAttributes + mapper.getIppAttributes(src.operationAttributes.value) + extra(src)
  {
  }

  /**
   * IIppRequestMessage -> CancelJobRequest: OperationAttributes rebuilt from the
   * dictionary of the message's operation attributes, then the common
   * IIppJobRequest map.
   */
  function MessageToRequest(src: IppRequestMessage, mapper: Mapper): (dst: IppRequest)
    ensures KeepsRequestOperationAttributes(mapper.messageToJobRequest) ==>
      dst.operationAttributes == Some(mapper.createOperationAttributes(mapper.toIppDictionary(src.operationAttributes)))
    ensures FillsRequest(mapper.messageToJobRequest) ==>
      dst == mapper.newCancelJobRequest.(
        version := src.version,
        requestId := src.requestId,
        operationAttributes := Some(mapper.createOperationAttributes(mapper.toIppDictionary(src.operationAttributes))))
  {
    var blank := mapper.newCancelJobRequest.(
      operationAttributes := Some(mapper.createOperationAttributes(mapper.toIppDictionary(src.operationAttributes))));
    mapper.messageToJobRequest(src, blank)
  }

  /**
   * The rebuilt request depends on the message's operation attributes only through
   * their dictionary, and a request with null OperationAttributes does not survive
   * request -> message -> request: the attributes come back non-null.
   */
  lemma MessageToRequestUsesDictionary(m1: IppRequestMessage, m2: IppRequestMessage, src: IppRequest, mapper: Mapper)
    requires KeepsRequestOperationAttributes(mapper.messageToJobRequest)
    ensures mapper.toIppDictionary(m1.operationAttributes) == mapper.toIppDictionary(m2.operationAttributes) ==>
      MessageToRequest(m1, mapper).operationAttributes == MessageToRequest(m2, mapper).operationAttributes
    ensures MessageToRequest(RequestToMessage(src, mapper), mapper).operationAttributes.Some?
  {
  }

  /**
   * IppResponseMessage -> CancelJobResponse: a fresh response filled by the
   * common IIppResponseMessage map; the sections of the fresh object come first.
   */
  function ResponseMessageToResponse(src: IppResponseMessage, mapper: Mapper): (dst: IppResponse)
    ensures FillsResponse(mapper.responseMessageToResponse) ==>
      dst == IppResponse(src.version, src.statusCode, src.requestId, mapper.newCancelJobResponse.sections + src.sections)
  {
    mapper.responseMessageToResponse(src, mapper.newCancelJobResponse)
  }

  /**
   * CancelJobResponse -> IppResponseMessage: a fresh message filled by the
   * common IIppResponseMessage map; the sections of the fresh object come first.
   */
  function ResponseToResponseMessage(src: IppResponse, mapper: Mapper): (dst: IppResponseMessage)
    ensures FillsResponseMessage(mapper.responseToResponseMessage) ==>
      dst == IppResponseMessage(src.version, src.statusCode, src.requestId, mapper.newResponseMessage.sections + src.sections)
  {
    mapper.responseToResponseMessage(src, mapper.newResponseMessage)
  }

  /**
   * When the common maps fill the IIppResponseMessage members and both fresh
   * objects start with no sections, the two response mappings are inverse to
   * each other.
   */
  lemma ResponseRoundTrip(m: IppResponseMessage, r: IppResponse, mapper: Mapper)
    requires FillsResponse(mapper.responseMessageToResponse)
    requires FillsResponseMessage(mapper.responseToResponseMessage)
    requires mapper.newCancelJobResponse.sections == [] && mapper.newResponseMessage.sections == []
    ensures ResponseToResponseMessage(ResponseMessageToResponse(m, mapper), mapper) == m
    ensures ResponseMessageToResponse(ResponseToResponseMessage(r, mapper), mapper) == r
  {
  }
}

=== FILE: pause_printer_profile.dfy ===
/**
 * The four mappings PausePrinterProfile registers for Pause-Printer (section
 * 3.2.7 of RFC 2911). Unlike Cancel-Job the profile contributes no attributes of
 * its own: every mapping is a fresh object filled by a common interface map.
 */
module PausePrinterProfile {
  import opened Wrappers
  import opened Protocol
  import CancelJobProfile

  /** new PausePrinterResponse(): its property initialisers. */
  function NewPausePrinterResponse(): (r: IppResponse)
    ensures r.version == V1_1
    ensures r.statusCode == SuccessfulOk
    ensures r.requestId == 0
    ensures r.sections == []
  {
    IppResponse(V1_1, SuccessfulOk, 0, [])
  }

  /**
   * PausePrinterRequest -> IppRequestMessage: a fresh message with operation
   * Pause-Printer, filled by the common IIppPrinterRequest map.
   */
  function RequestToMessage(src: IppRequest, mapper: Mapper): (dst: IppRequestMessage)
    ensures KeepsOperation(mapper.printerRequestToMessage) ==> dst.operation == PausePrinter
    ensures AppendOnly(mapper.printerRequestToMessage) ==>
      mapper.newRequestMessage.operationAttributes <= dst.operationAttributes
  {
    mapper.printerRequestToMessage(src, mapper.newRequestMessage.(operation := PausePrinter))
  }

  /**
   * The profile adds no operation attributes: after those of the fresh message
   * come only what the common map appends, whatever the request's
   * OperationAttributes hold.
   */
  lemma RequestAddsNoAttributes(src: IppRequest, mapper: Mapper, extra: IppRequest -> seq<IppAttribute>)
    requires AppendsOperationAttributes(mapper.printerRequestToMessage, extra)
    ensures RequestToMessage(src, mapper).operationAttributes == mapper.newRequestMessage.operationAttributes + extra(src)
  {
  }

  /**
   * Pause-Printer and Cancel-Job requests are told apart on the wire: whatever
   * the requests, the two profiles set different operation codes.
   */
  lemma OperationsDiffer(a: IppRequest, b: IppRequest, mapper: Mapper)
    requires KeepsOperation(mapper.printerRequestToMessage)
    requires KeepsOperation(mapper.jobRequestToMessage)
    ensures RequestToMessage(a, mapper) != CancelJobProfile.RequestToMessage(b, mapper)
  {
  }

  /**
   * IppRequestMessage -> PausePrinterRequest: a fresh request filled by the common
   * IIppPrinterRequest map; the profile itself reads nothing of the message.
   */
  function MessageToRequest(src: IppRequestMessage, mapper: Mapper): (dst: IppRequest)
    ensures KeepsRequestOperationAttributes(mapper.messageToPrinterRequest) ==>
      dst.operationAttributes == mapper.newPausePrinterRequest.operationAttributes
    ensures FillsRequest(mapper.messageToPrinterRequest) ==>
      dst == mapper.newPausePrinterRequest.(version := src.version, requestId := src.requestId)
  {
    mapper.messageToPrinterRequest(src, mapper.newPausePrinterRequest)
  }

  /**
   * The profile reads no operation attributes of the message itself: whatever
   * OperationAttributes (printer-uri included) the request gets, it gets
   * through the common IIppPrinterRequest map.
   */
  lemma OperationAttributesComeFromCommonMap(src: IppRequestMessage, mapper: Mapper, read: IppRequestMessage -> Option<OperationAttributes>)
    requires FillsRequestReading(mapper.messageToPrinterRequest, read)
    ensures MessageToRequest(src, mapper)
      == mapper.newPausePrinterRequest.(version := src.version, requestId := src.requestId, operationAttributes := read(src))
  {
  }

  /**
   * IppResponseMessage -> PausePrinterResponse: starts from the initialisers of
   * PausePrinterResponse, whose Sections is empty, then the common
   * IIppResponseMessage map.
   */
  function ResponseMessageToResponse(src: IppResponseMessage, mapper: Mapper): (dst: IppResponse)
    ensures FillsResponse(mapper.responseMessageToResponse) ==>
      dst == IppResponse(src.version, src.statusCode, src.requestId, src.sections)
  {
    mapper.responseMessageToResponse(src, NewPausePrinterResponse())
  }

  /** A common map that fills nothing leaves the initialisers of the fresh response. */
  lemma ResponseDefaultsShowThrough(src: IppResponseMessage, mapper: Mapper)
    requires forall m, r :: mapper.responseMessageToResponse(m, r) == r
    ensures ResponseMessageToResponse(src, mapper) == IppResponse(V1_1, 0, 0, [])
  {
  }

  /**
   * PausePrinterResponse -> IppResponseMessage: a fresh message filled by the
   * common map; the sections of the fresh message come first.
   */
  function ResponseToResponseMessage(src: IppResponse, mapper: Mapper): (dst: IppResponseMessage)
    ensures FillsResponseMessage(mapper.responseToResponseMessage) ==>
      dst == IppResponseMessage(src.version, src.statusCode, src.requestId, mapper.newResponseMessage.sections + src.sections)
  {
    mapper.responseToResponseMessage(src, mapper.newResponseMessage)
  }

  /**
   * With filling common maps and a fresh IppResponseMessage without sections,
   * the two response mappings are inverse to each other.
   */
  lemma ResponseRoundTrip(m: IppResponseMessage, r: IppResponse, mapper: Mapper)
    requires FillsResponse(mapper.responseMessageToResponse)
    requires FillsResponseMessage(mapper.responseToResponseMessage)
    requires mapper.newResponseMessage.sections == []
    ensures ResponseToResponseMessage(ResponseMessageToResponse(m, mapper), mapper) == m
    ensures ResponseMessageToResponse(ResponseToResponseMessage(r, mapper), mapper) == r
  {
  }
}

=== FILE: protocol.dfy ===
/**
 * The values the SharpIpp mapping layer and client pass around: machine integers,
 * URIs, IPP versions and operation codes, attributes, the generic request and
 * response messages, the domain request and response objects, and the collaborators
 * (helpers, common interface maps and default constructors) that the operation
 * profiles delegate to but whose definitions are not part of this model.
 */
module Protocol {
  import opened Wrappers

  /** C# `int`. */
  type Int32 = x: int | -0x8000_0000 <= x < 0x8000_0000

  /** C# `short`. */
  type Int16 = x: int | -0x8000 <= x < 0x8000

  /** A one-byte tag of the IPP wire format. */
  type Tag = b: int | 0 <= b < 0x100

  /**
   * System.Uri, reduced to the parts the client reads. `port` is -1 when the URI
   * names no port and its scheme has no default that System.Uri knows of.
   */
  datatype Uri = Uri(scheme: string, host: string, port: int, absolutePath: string, query: string)

  /** IPP protocol version, major.minor. */
  datatype IppVersion = IppVersion(major: nat, minor: nat)

  const V1_1 := IppVersion(1, 1)

  /**
   * IppOperation: a C# enumeration whose value is the 16-bit operation-id of
   * section 4.4.15 of RFC 2911. Every 16-bit value is a value of the type,
   * named or not.
   */
  datatype IppOperation = IppOperation(code: Int16)

  const CancelJob := IppOperation(0x0008)
  const PausePrinter := IppOperation(0x0010)

  /** IppStatusCode successful-ok (section 13.1.2.1 of RFC 2911), the default of the C# enumeration. */
  const SuccessfulOk: Int32 := 0

  /** Range: a rangeOfInteger pair, both bounds inclusive; lower <= upper is not enforced. */
  datatype Range = Range(lower: Int32, upper: Int32)

  /** Resolution: cross-feed and feed resolution with the numeric ResolutionUnit. */
  datatype Resolution = Resolution(width: Int32, height: Int32, units: Int32)

  /** StringWithLanguage: a textWithLanguage / nameWithLanguage value. */
  datatype StringWithLanguage = StringWithLanguage(language: string, value: string)

  /** DateTimeOffset as ticks of 100 ns and an offset from UTC in minutes. */
  datatype DateTimeOffset = DateTimeOffset(ticks: int, offsetMinutes: int)

  /** One attribute value, by the kind of its wire syntax. */
  datatype IppValue =
    | IntegerValue(i: Int32)
    | BooleanValue(b: bool)
    | EnumValue(code: Int32)
    | StringValue(s: string)
    | DateTimeValue(d: DateTimeOffset)
    | ResolutionValue(res: Resolution)
    | RangeValue(range: Range)
    | StringWithLanguageValue(swl: StringWithLanguage)
    | OutOfBand  // no-value, unknown or unsupported

  /** One attribute value with its value tag and attribute name. */
  datatype IppAttribute = IppAttribute(tag: Tag, name: string, value: IppValue)

  /** An attribute group: its delimiter tag and its attributes in order. */
  datatype IppSection = IppSection(tag: Tag, attributes: seq<IppAttribute>)

  /** IppRequestMessage: the generic request handed to the codec. */
  datatype IppRequestMessage = IppRequestMessage(
    version: IppVersion,
    operation: IppOperation,
    requestId: Int32,
    operationAttributes: seq<IppAttribute>,
    jobAttributes: seq<IppAttribute>)

  /** IppResponseMessage: the generic response produced by the codec. */
  datatype IppResponseMessage = IppResponseMessage(
    version: IppVersion,
    statusCode: Int32,
    requestId: Int32,
    sections: seq<IppSection>)

  /**
   * The operation attributes of a domain request; of their members this model
   * keeps printer-uri and job-id.
   */
  datatype OperationAttributes = OperationAttributes(printerUri: Option<Uri>, jobId: Option<Int32>)

  /**
   * A domain request (CancelJobRequest, PausePrinterRequest, ...): the members of
   * IIppRequest. `operationAttributes` is None where the C# property is null.
   */
  datatype IppRequest = IppRequest(
    version: IppVersion,
    requestId: Int32,
    operationAttributes: Option<OperationAttributes>)

  /** A domain response (CancelJobResponse, PausePrinterResponse): the members of IIppResponseMessage. */
  datatype IppResponse = IppResponse(
    version: IppVersion,
    statusCode: Int32,
    requestId: Int32,
    sections: seq<IppSection>)

  /** The dictionary form of a list of attributes: attribute name to its values. */
  type AttributeDictionary = map<string, seq<IppAttribute>>

  /**
   * The mapper handed to each profile lambda, reduced to what the Cancel-Job and
   * Pause-Printer profiles use: the default-constructed objects whose classes are
   * not part of this model, the attribute helpers, and the common maps registered
   * for the IIppJobRequest, IIppPrinterRequest and IIppResponseMessage interfaces.
   * A common map takes its source and the destination it fills, and returns the
   * filled destination.
   */
  datatype Mapper = Mapper(
    newRequestMessage: IppRequestMessage,
    newResponseMessage: IppResponseMessage,
    newCancelJobRequest: IppRequest,
    newPausePrinterRequest: IppRequest,
    newCancelJobResponse: IppResponse,
    getIppAttributes: OperationAttributes -> seq<IppAttribute>,
    toIppDictionary: seq<IppAttribute> -> AttributeDictionary,
    createOperationAttributes: AttributeDictionary -> OperationAttributes,
    jobRequestToMessage: (IppRequest, IppRequestMessage) -> IppRequestMessage,
    printerRequestToMessage: (IppRequest, IppRequestMessage) -> IppRequestMessage,
    messageToJobRequest: (IppRequestMessage, IppRequest) -> IppRequest,
    messageToPrinterRequest: (IppRequestMessage, IppRequest) -> IppRequest,
    responseMessageToResponse: (IppResponseMessage, IppResponse) -> IppResponse,
    responseToResponseMessage: (IppResponse, IppResponseMessage) -> IppResponseMessage)

  /**
   * A common request map that leaves the operation code alone: the request
   * interfaces declare no operation member.
   */
  ghost predicate KeepsOperation(common: (IppRequest, IppRequestMessage) -> IppRequestMessage)
  {
    forall r, m :: common(r, m).operation == m.operation
  }

  /**
   * A common request map that appends `extra(r)` to the operation attributes it
   * finds and removes or reorders none of them.
   */
  ghost predicate AppendsOperationAttributes(
    common: (IppRequest, IppRequestMessage) -> IppRequestMessage,
    extra: IppRequest -> seq<IppAttribute>)
  {
    forall r, m :: common(r, m).operationAttributes == m.operationAttributes + extra(r)
  }

  /** A common request map that only appends to the operation attributes it finds. */
  ghost predicate AppendOnly(common: (IppRequest, IppRequestMessage) -> IppRequestMessage)
  {
    forall r: IppRequest, m: IppRequestMessage :: m.operationAttributes <= common(r, m).operationAttributes
  }

  /**
   * A common message-to-request map that sets Version and RequestId from the
   * message and leaves the rest of the request as it finds it.
   */
  ghost predicate FillsRequest(common: (IppRequestMessage, IppRequest) -> IppRequest)
  {
    forall m, r :: common(m, r) == r.(version := m.version, requestId := m.requestId)
  }

  /**
   * A common message-to-request map that sets Version and RequestId from the
   * message and replaces the operation attributes by `read(m)`, what it reads of
   * the message.
   */
  ghost predicate FillsRequestReading(
    common: (IppRequestMessage, IppRequest) -> IppRequest,
    read: IppRequestMessage -> Option<OperationAttributes>)
  {
    forall m, r :: common(m, r) == r.(version := m.version, requestId := m.requestId, operationAttributes := read(m))
  }

  /** A common message-to-request map that leaves the request's operation attributes alone. */
  ghost predicate KeepsRequestOperationAttributes(common: (IppRequestMessage, IppRequest) -> IppRequest)
  {
    forall m, r :: common(m, r).operationAttributes == r.operationAttributes
  }

  /**
   * A common response map that sets Version, StatusCode and RequestId from its
   * source and adds the source's sections to those the destination already
   * holds: Sections is a get-only list that a map can only add to.
   */
  ghost predicate FillsResponse(common: (IppResponseMessage, IppResponse) -> IppResponse)
  {
    forall m, r :: common(m, r) == IppResponse(m.version, m.statusCode, m.requestId, r.sections + m.sections)
  }

  /** The same, from a domain response to the wire message. */
  ghost predicate FillsResponseMessage(common: (IppResponse, IppResponseMessage) -> IppResponseMessage)
  {
    forall r, m :: common(r, m) == IppResponseMessage(r.version, r.statusCode, r.requestId, m.sections + r.sections)
  }
}

=== FILE: sharp_ipp_client.dfy ===
/**
 * The decision logic of SharpIppClient: how a printer URI becomes the HTTP
 * endpoint, which HTTP failures still have their body decoded, what SendAsync
 * returns or raises for each combination of HTTP status, decode result and IPP
 * status, and the checks made before anything is sent. The codec, the HTTP
 * client and the mapper are collaborators given as parameters.
 */
module SharpIppClient {
  import opened Wrappers
  import opened Protocol

  // ---------------------------------------------------------------------------
  // Exceptions and outcomes
  // ---------------------------------------------------------------------------

  /** The exceptions the client raises or passes on. */
  datatype Exception =
    | HttpRequestException(statusCode: int)  // raised by EnsureSuccessStatusCode
    | IppResponseException(message: Message, inner: Option<Exception>, response: IppResponseMessage)
    | ArgumentException(message: Message)
    | PlainException(text: string)  // new Exception(text)
    | ExternalException(origin: string)  // raised by a collaborator outside this model

  /** An exception message: a literal, or the Message of another exception. */
  datatype Message = Text(text: string) | MessageOf(exception: Exception)

  /** The result of a call: a returned value or a raised exception. */
  datatype Outcome<+T> = Returned(value: T) | Thrown(exception: Exception)

  const PrinterErrorMessage := "Printer returned error code"
  const MappingErrorMessage := "Ipp attributes mapping exception"
  const PrinterUriNotSetMessage := "PrinterUri is not set"

  // ---------------------------------------------------------------------------
  // HTTP
  // ---------------------------------------------------------------------------

  datatype HttpMethod = Get | Post

  datatype HttpContent = HttpContent(contentType: string, body: seq<bv8>)

  datatype HttpRequestMessage = HttpRequestMessage(httpMethod: HttpMethod, requestUri: Uri, content: Option<HttpContent>)

  datatype HttpResponseMessage = HttpResponseMessage(statusCode: int, body: seq<bv8>)

  /** HttpResponseMessage.IsSuccessStatusCode, the test of EnsureSuccessStatusCode. */
  predicate IsSuccessStatusCode(code: int)
  {
    200 <= code <= 299
  }

  /** _plausibleHttpStatusCodes: Continue, Unauthorized, Forbidden, UpgradeRequired. */
  const PlausibleHttpStatusCodes: seq<int> := [100, 401, 403, 426]

  /** Membership in _plausibleHttpStatusCodes. */
  function IsPlausible(code: int): (r: bool)
    ensures r <==> code == 100 || code == 401 || code == 403 || code == 426
    ensures r ==> !IsSuccessStatusCode(code)
  {
    code in PlausibleHttpStatusCodes
  }

  // ---------------------------------------------------------------------------
  // Printer URI -> HTTP endpoint
  // ---------------------------------------------------------------------------

  /** The simple upper-case mapping of StringComparison.OrdinalIgnoreCase, on ASCII letters. */
  function ToUpperAscii(c: char): char
  {
    if 'a' <= c <= 'z' then (c as int - 32) as char else c
  }

  /** String.Equals with StringComparison.OrdinalIgnoreCase. */
  function EqualsIgnoreCase(a: string, b: string): (r: bool)
    ensures r <==> |a| == |b| && forall i :: 0 <= i < |a| ==> ToUpperAscii(a[i]) == ToUpperAscii(b[i])
  {
    if |a| != |b| then false
    else if a == [] then true
    else ToUpperAscii(a[0]) == ToUpperAscii(b[0]) && EqualsIgnoreCase(a[1..], b[1..])
  }

  /** A string with every ASCII letter upper-cased. */
  function UpperAscii(s: string): (u: string)
    ensures |u| == |s| && forall i :: 0 <= i < |s| ==> u[i] == ToUpperAscii(s[i])
  {
    seq(|s|, i requires 0 <= i < |s| => ToUpperAscii(s[i]))
  }

  /** isSecured: the scheme is https or ipps, in any letter case. */
  function IsSecured(scheme: string): (r: bool)
    ensures r <==> UpperAscii(scheme) == "HTTPS" || UpperAscii(scheme) == "IPPS"
  {
    assert UpperAscii("https") == "HTTPS";
    assert UpperAscii("ipps") == "IPPS";
    EqualsIgnoreCase(scheme, "https") || EqualsIgnoreCase(scheme, "ipps")
  }

  /** defaultPort: 443 for https, 80 for http, 631 for every other scheme, ipps included. */
  function DefaultPort(scheme: string): (port: int)
    ensures EqualsIgnoreCase(scheme, "https") ==> port == 443
    ensures EqualsIgnoreCase(scheme, "http") ==> port == 80
    ensures !EqualsIgnoreCase(scheme, "https") && !EqualsIgnoreCase(scheme, "http") ==> port == 631
  {
    if EqualsIgnoreCase(scheme, "https") then 443
    else if EqualsIgnoreCase(scheme, "http") then 80
    else 631
  }

  /** GetHttpRequestMessage: a POST to the printer's URI with its scheme and port normalised. */
  function GetHttpRequestMessage(printer: Uri): (r: HttpRequestMessage)
    ensures r.httpMethod == Post && r.content == None
    ensures r.requestUri.scheme == "https" || r.requestUri.scheme == "http"
    ensures r.requestUri.scheme == "https"
      <==> EqualsIgnoreCase(printer.scheme, "https") || EqualsIgnoreCase(printer.scheme, "ipps")
    ensures r.requestUri.host == printer.host
    ensures r.requestUri.absolutePath == printer.absolutePath
    ensures r.requestUri.query == printer.query
    ensures printer.port != -1 ==> r.requestUri.port == printer.port
    ensures printer.port == -1 ==> r.requestUri.port == DefaultPort(printer.scheme)
    ensures r.requestUri.port != -1
  {
    var uri := Uri(
      if IsSecured(printer.scheme) then "https" else "http",
      printer.host,
      if printer.port == -1 then DefaultPort(printer.scheme) else printer.port,
      printer.absolutePath,
      printer.query);
    HttpRequestMessage(Post, uri, None)
  }

  /** Normalising an endpoint that is already normalised changes nothing. */
  lemma GetHttpRequestMessageIdempotent(printer: Uri)
    ensures GetHttpRequestMessage(GetHttpRequestMessage(printer).requestUri) == GetHttpRequestMessage(printer)
  {
  }

  /**
   * The endpoint of ipp://127.0.0.1:631/ and of ipps://printer/ipp/print, which
   * has no port. System.Uri stores schemes in lower case, so the letter-case
   * freedom of the comparisons matters only for a scheme it did not parse.
   */
  lemma GetHttpRequestMessageExamples()
    ensures GetHttpRequestMessage(Uri("ipp", "127.0.0.1", 631, "/", "")).requestUri
      == Uri("http", "127.0.0.1", 631, "/", "")
    ensures GetHttpRequestMessage(Uri("ipps", "printer", -1, "/ipp/print", "")).requestUri
      == Uri("https", "printer", 631, "/ipp/print", "")
  {
  }

  // ---------------------------------------------------------------------------
  // SendAsync
  // ---------------------------------------------------------------------------

  /**
   * What SendAsync delegates: the codec's WriteIppRequestAsync and
   * ReadIppResponseAsync, HttpClient.SendAsync, and IsSuccessfulStatusCode.
   */
  datatype Transport = Transport(
    writeIppRequest: IppRequestMessage -> Outcome<seq<bv8>>,
    send: HttpRequestMessage -> Outcome<HttpResponseMessage>,
    readIppResponse: seq<bv8> -> Outcome<IppResponseMessage>,
    isSuccessfulStatusCode: IppResponseMessage -> bool)

  /** The HTTP request SendAsync sends: the endpoint of `printer` carrying `body` as application/ipp. */
  function IppHttpRequest(printer: Uri, body: seq<bv8>): (r: HttpRequestMessage)
    ensures r.httpMethod == Post && r.requestUri == GetHttpRequestMessage(printer).requestUri
    ensures r.content == Some(HttpContent("application/ipp", body))
  {
    GetHttpRequestMessage(printer).(content := Some(HttpContent("application/ipp", body)))
  }

  /**
   * The outcome of SendAsync(printer, ippRequest): encoding and transport
   * errors propagate; an HTTP failure outside the plausible set is raised
   * without reading the body; otherwise the body is decoded, and a decode error
   * or a failing IPP status is raised, unless an HTTP failure came first, whose
   * exception then replaces it or wraps the successful response.
   */
  function SendOutcome(printer: Uri, ippRequest: IppRequestMessage, io: Transport): (r: Outcome<IppResponseMessage>)
    ensures io.writeIppRequest(ippRequest).Thrown? ==> r == Thrown(io.writeIppRequest(ippRequest).exception)
    ensures r.Returned? ==>
      && io.writeIppRequest(ippRequest).Returned?
      && var response := io.send(IppHttpRequest(printer, io.writeIppRequest(ippRequest).value));
      && response.Returned?
      && IsSuccessStatusCode(response.value.statusCode)
      && io.readIppResponse(response.value.body) == r
      && io.isSuccessfulStatusCode(r.value)
  {
    match io.writeIppRequest(ippRequest)
    case Thrown(e) => Thrown(e)
    case Returned(body) =>
      match io.send(IppHttpRequest(printer, body))
      case Thrown(e) => Thrown(e)
      case Returned(response) =>
        var code := response.statusCode;
        if !IsSuccessStatusCode(code) && !IsPlausible(code) then Thrown(HttpRequestException(code))
        else
          var decoded := io.readIppResponse(response.body);
          var ippError :=
            if decoded.Thrown? then Some(decoded.exception)
            else if !io.isSuccessfulStatusCode(decoded.value) then Some(IppResponseException(Text(PrinterErrorMessage), None, decoded.value))
            else None;
          if IsSuccessStatusCode(code) then
            if ippError.Some? then Thrown(ippError.value) else decoded
          else
            var httpException := HttpRequestException(code);
            if ippError.Some? then Thrown(httpException)
            else Thrown(IppResponseException(MessageOf(httpException), Some(httpException), decoded.value))
  }

  /**
   * SendAsync(printer, ippRequest). Besides the outcome it reports the HTTP
   * request sent, the HTTP response received and whether the body was decoded.
   */
  method SendAsync(printer: Uri, ippRequest: IppRequestMessage, io: Transport)
    returns (result: Outcome<IppResponseMessage>, sent: Option<HttpRequestMessage>,
             received: Option<HttpResponseMessage>, bodyRead: bool)
    // encoding fails: nothing is sent
    ensures io.writeIppRequest(ippRequest).Thrown? ==>
      result == Thrown(io.writeIppRequest(ippRequest).exception) && sent == None && received == None && !bodyRead
    ensures io.writeIppRequest(ippRequest).Returned? ==>
      sent == Some(IppHttpRequest(printer, io.writeIppRequest(ippRequest).value))
    // the transport fails: its exception propagates
    ensures sent.Some? && io.send(sent.value).Thrown? ==>
      result == Thrown(io.send(sent.value).exception) && received == None && !bodyRead
    ensures sent.Some? && io.send(sent.value).Returned? ==> received == Some(io.send(sent.value).value)
    ensures received.Some? ==> sent.Some?
    // an HTTP failure outside the plausible set: rethrown, the body is never decoded
    ensures received.Some? && !IsSuccessStatusCode(received.value.statusCode) && !IsPlausible(received.value.statusCode) ==>
      result == Thrown(HttpRequestException(received.value.statusCode)) && !bodyRead
    // HTTP success: the decoded response, its failing status as IppResponseException, or the decode error
    ensures received.Some? && IsSuccessStatusCode(received.value.statusCode) ==>
      var decoded := io.readIppResponse(received.value.body);
      && bodyRead
      && (decoded.Thrown? ==> result == decoded)
      && (decoded.Returned? && io.isSuccessfulStatusCode(decoded.value) ==> result == decoded)
      && (decoded.Returned? && !io.isSuccessfulStatusCode(decoded.value) ==>
            result == Thrown(IppResponseException(Text(PrinterErrorMessage), None, decoded.value)))
    // a plausible HTTP failure: the HTTP exception replaces any IPP error, and wraps a successful response
    ensures received.Some? && IsPlausible(received.value.statusCode) ==>
      var decoded := io.readIppResponse(received.value.body);
      var httpException := HttpRequestException(received.value.statusCode);
      && bodyRead
      && (decoded.Thrown? || !io.isSuccessfulStatusCode(decoded.value) ==> result == Thrown(httpException))
      && (decoded.Returned? && io.isSuccessfulStatusCode(decoded.value) ==>
            result == Thrown(IppResponseException(MessageOf(httpException), Some(httpException), decoded.value)))
    // a response is returned only after HTTP and IPP both succeeded
    ensures result.Returned? ==>
      received.Some? && IsSuccessStatusCode(received.value.statusCode) && io.isSuccessfulStatusCode(result.value)
    ensures result == SendOutcome(printer, ippRequest, io)
  {
    sent, received, bodyRead := None, None, false;
    var written := io.writeIppRequest(ippRequest);
    if written.Thrown? {
      result := Thrown(written.exception);
      return;
    }
    var httpRequest := IppHttpRequest(printer, written.value);
    sent := Some(httpRequest);
    var response := io.send(httpRequest);
    if response.Thrown? {
      result := Thrown(response.exception);
      return;
    }
    received := Some(response.value);

    var httpException: Option<Exception> := None;
    if !IsSuccessStatusCode(response.value.statusCode) {
      var ex := HttpRequestException(response.value.statusCode);
      if !IsPlausible(response.value.statusCode) {
        result := Thrown(ex);
        return;
      }
      httpException := Some(ex);
    }

    bodyRead := true;
    var decoded := io.readIppResponse(response.value.body);
    var caught: Option<Exception> := None;
    if decoded.Thrown? {
      caught := Some(decoded.exception);
    } else if !io.isSuccessfulStatusCode(decoded.value) {
      caught := Some(IppResponseException(Text(PrinterErrorMessage), None, decoded.value));
    }
    if caught.Some? {
      result := Thrown(if httpException.None? then caught.value else httpException.value);
      return;
    }

    if httpException.None? {
      result := decoded;
      return;
    }
    result := Thrown(IppResponseException(MessageOf(httpException.value), httpException, decoded.value));
  }

  /** The printer URI of a request, when its OperationAttributes and PrinterUri are set. */
  function PrinterUriOf(data: IppRequest): Option<Uri>
  {
    match data.operationAttributes
    case None => None
    case Some(a) => a.printerUri
  }

  /**
   * SendAsync<TIn, TOut>: the request message is built first; a missing
   * OperationAttributes or PrinterUri is then rejected before anything is sent;
   * otherwise the message is sent and the response constructed.
   */
  method SendTyped<TOut>(
    data: IppRequest,
    constructRequest: IppRequest -> Outcome<IppRequestMessage>,
    constructResponse: IppResponseMessage -> Outcome<TOut>,
    io: Transport)
    returns (result: Outcome<TOut>, sent: Option<HttpRequestMessage>)
    ensures constructRequest(data).Thrown? ==>
      result == Thrown(constructRequest(data).exception) && sent == None
    ensures constructRequest(data).Returned? && PrinterUriOf(data) == None ==>
      result == Thrown(PlainException(PrinterUriNotSetMessage)) && sent == None
    ensures sent.Some? ==>
      && constructRequest(data).Returned?
      && PrinterUriOf(data).Some?
      && sent.value.requestUri == GetHttpRequestMessage(PrinterUriOf(data).value).requestUri
    ensures result.Returned? ==> sent.Some?
    // otherwise the built message goes to the PrinterUri's endpoint and the response is constructed
    ensures constructRequest(data).Returned? && PrinterUriOf(data).Some? ==>
      var ippRequest, uri := constructRequest(data).value, PrinterUriOf(data).value;
      var outcome := SendOutcome(uri, ippRequest, io);
      && (io.writeIppRequest(ippRequest).Returned? ==> sent == Some(IppHttpRequest(uri, io.writeIppRequest(ippRequest).value)))
      && (io.writeIppRequest(ippRequest).Thrown? ==> sent == None)
      && (outcome.Thrown? ==> result == Thrown(outcome.exception))
      && (outcome.Returned? ==> result == constructResponse(outcome.value))
  {
    sent := None;
    var ippRequest := constructRequest(data);
    if ippRequest.Thrown? {
      result := Thrown(ippRequest.exception);
      return;
    }
    if data.operationAttributes.None? || data.operationAttributes.value.printerUri.None? {
      result := Thrown(PlainException(PrinterUriNotSetMessage));
      return;
    }
    var ippResponse, received, bodyRead;
    ippResponse, sent, received, bodyRead := SendAsync(data.operationAttributes.value.printerUri.value, ippRequest.value, io);
    if ippResponse.Thrown? {
      result := Thrown(ippResponse.exception);
      return;
    }
    result := constructResponse(ippResponse.value);
  }

  /** ConstructIppRequest<T>: a null request is an ArgumentException; otherwise the mapper's result. */
  function ConstructIppRequest<T>(request: Option<T>, mapping: T -> Outcome<IppRequestMessage>): (r: Outcome<IppRequestMessage>)
    ensures request.None? ==> r == Thrown(ArgumentException(Text("request")))
    ensures request.Some? ==> r == mapping(request.value)
  {
    match request
    case None => Thrown(ArgumentException(Text("request")))
    case Some(req) => mapping(req)
  }

  /**
   * Construct<T>: the mapped response, or any mapping failure wrapped in an
   * IppResponseException that carries the original response.
   */
  function Construct<T>(ippResponse: IppResponseMessage, mapping: IppResponseMessage -> Outcome<T>): (r: Outcome<T>)
    ensures r.Returned? <==> mapping(ippResponse).Returned?
    ensures r.Returned? ==> r.value == mapping(ippResponse).value
    ensures r.Thrown? ==>
      && r.exception.IppResponseException?
      && r.exception.message == Text(MappingErrorMessage)
      && r.exception.inner == Some(mapping(ippResponse).exception)
      && r.exception.response == ippResponse
  {
    match mapping(ippResponse)
    case Returned(v) => Returned(v)
    case Thrown(ex) => Thrown(IppResponseException(Text(MappingErrorMessage), Some(ex), ippResponse))
  }
}

=== FILE: types_profile.dfy ===
/**
 * The scalar converters that TypesProfile.CreateMaps registers: identities,
 * epoch-second dates, integer-to-enumeration casts, NoValue defaults,
 * language-tagged strings and the keyword-backed enumerations. The registry
 * itself is replaced by one function per registered converter.
 */
module TypesProfile {
  import opened Wrappers
  import opened Protocol

  // ---------------------------------------------------------------------------
  // Identity maps: CreateIppMap<T>() for int, bool, string, DateTimeOffset,
  // Range, Resolution and StringWithLanguage.
  // ---------------------------------------------------------------------------

  function IdentityMap<T>(src: T): (dst: T)
    ensures dst == src
  {
    src
  }

  // ---------------------------------------------------------------------------
  // Epoch seconds and DateTime
  // ---------------------------------------------------------------------------

  const TicksPerSecond := 10_000_000

  /** DateTime.MaxValue.Ticks. */
  const MaxTicks := 3_155_378_975_999_999_999

  /** The ticks of 1970-01-01T00:00:00, counted from 0001-01-01T00:00:00. */
  const UnixEpochTicks := 621_355_968_000_000_000

  /** A DateTime: 100-nanosecond ticks since 0001-01-01T00:00:00; its Kind is not modelled. */
  datatype DateTime = DateTime(ticks: int) {
    ghost predicate Valid() { 0 <= ticks <= MaxTicks }
  }

  const UnixStartTime := DateTime(UnixEpochTicks)

  /** C# `/` on long: the quotient rounded toward zero. */
  function TruncDiv(a: int, b: int): (q: int)
    requires b > 0
    ensures a >= 0 ==> q >= 0
    ensures a <= 0 ==> q <= 0
    ensures -b < a < b ==> q == 0
  {
    if a >= 0 then a / b else -((-a) / b)
  }

  /** C# `%` on long: the remainder has the sign of the dividend. */
  function TruncRem(a: int, b: int): (r: int)
    requires b > 0
    ensures -b < r < b
    ensures a >= 0 ==> r >= 0
    ensures a <= 0 ==> r <= 0
    ensures -b < a < b ==> r == a
  {
    if a >= 0 then a % b else -((-a) % b)
  }

  /** int -> DateTime: unixStartTime.AddSeconds(src), exact for every int. */
  function IntToDateTime(src: Int32): (d: DateTime)
    ensures d.Valid()
    ensures d.ticks % TicksPerSecond == 0
    ensures d == UnixStartTime <==> src == 0
  {
    DateTime(UnixEpochTicks + src * TicksPerSecond)
  }

  /** TimeSpan.Seconds of a span of `spanTicks`: the seconds component, not the total. */
  function SecondsComponent(spanTicks: int): (s: int)
    ensures -59 <= s <= 59
    ensures spanTicks >= 0 ==> s >= 0
    ensures spanTicks <= 0 ==> s <= 0
  {
    TruncRem(TruncDiv(spanTicks, TicksPerSecond), 60)
  }

  /** DateTime -> int as registered: (src - unixStartTime).Seconds. */
  function DateTimeToInt(src: DateTime): (r: Int32)
    ensures -59 <= r <= 59
    ensures src.ticks >= UnixEpochTicks ==> r >= 0
    ensures src.ticks <= UnixEpochTicks ==> r <= 0
  {
    SecondsComponent(src.ticks - UnixStartTime.ticks)
  }

  /**
   * DateTime -> int as evidently intended: the whole seconds elapsed since the
   * epoch, truncated toward zero like the cast of TimeSpan.TotalSeconds.
   */
  function DateTimeToEpochSeconds(src: DateTime): (r: int)
    ensures src.ticks >= UnixEpochTicks ==> r >= 0
    ensures src.ticks <= UnixEpochTicks ==> r <= 0
  {
    TruncDiv(src.ticks - UnixEpochTicks, TicksPerSecond)
  }

  /** The epoch and the integer 0 correspond in both directions, under both readings. */
  lemma EpochIsZero()
    ensures IntToDateTime(0) == UnixStartTime
    ensures DateTimeToInt(UnixStartTime) == 0
    ensures DateTimeToEpochSeconds(UnixStartTime) == 0
  {
  }

  /** The intended conversion undoes int -> DateTime for every int. */
  lemma EpochSecondsRoundTrip(n: Int32)
    ensures DateTimeToEpochSeconds(IntToDateTime(n)) == n
  {
  }

  /** int -> DateTime never maps two integers to the same instant. */
  lemma IntToDateTimeInjective(a: Int32, b: Int32)
    ensures IntToDateTime(a) == IntToDateTime(b) <==> a == b
  {
    if IntToDateTime(a) == IntToDateTime(b) {
      EpochSecondsRoundTrip(a);
      EpochSecondsRoundTrip(b);
    }
  }

  /** The registered DateTime -> int keeps only the intended result's remainder by 60. */
  lemma DateTimeToIntIsRemainderOfMinute(d: DateTime)
    ensures DateTimeToInt(d) == TruncRem(DateTimeToEpochSeconds(d), 60)
  {
  }

  /**
   * int -> DateTime -> int with the registered converters gives the truncated
   * remainder of n by 60, which is n exactly when -59 <= n <= 59.
   */
  lemma DateTimeRoundTripAsWritten(n: Int32)
    ensures DateTimeToInt(IntToDateTime(n)) == TruncRem(n, 60)
    ensures DateTimeToInt(IntToDateTime(n)) == n <==> -59 <= n <= 59
  {
    EpochSecondsRoundTrip(n);
    DateTimeToIntIsRemainderOfMinute(IntToDateTime(n));
  }

  /** One minute after the epoch converts back to 0 under the registered converter. */
  lemma OneMinuteAfterEpochBecomesZero()
    ensures IntToDateTime(60) == DateTime(UnixEpochTicks + 600_000_000)
    ensures DateTimeToInt(IntToDateTime(60)) == 0
    ensures DateTimeToEpochSeconds(IntToDateTime(60)) == 60
  {
    DateTimeRoundTripAsWritten(60);
    EpochSecondsRoundTrip(60);
  }

  // ---------------------------------------------------------------------------
  // int -> enumeration casts
  // ---------------------------------------------------------------------------

  /** C# unchecked `(short)` of an int: keeps the low 16 bits, two's complement. */
  function ToInt16(src: Int32): (s: Int16)
    ensures (s - src) % 0x1_0000 == 0
    ensures -0x8000 <= src < 0x8000 ==> s == src
  {
    var low := src % 0x1_0000;
    if low < 0x8000 then low else low - 0x1_0000
  }

  /** int -> IppOperation: (IppOperation)(short)src. */
  function IntToIppOperation(src: Int32): (op: IppOperation)
    ensures (op.code - src) % 0x1_0000 == 0
    ensures -0x8000 <= src < 0x8000 ==> op.code == src
  {
    IppOperation(ToInt16(src))
  }

  /** The operation obtained from an int depends on its low 16 bits and on nothing else. */
  lemma IppOperationDependsOnLow16Bits(a: Int32, b: Int32)
    ensures IntToIppOperation(a) == IntToIppOperation(b) <==> a % 0x1_0000 == b % 0x1_0000
  {
  }

  /** 0x10008 wraps to Cancel-Job, 0x10 is Pause-Printer, and 0xFFFF wraps to the operation code -1. */
  lemma IppOperationWrapExamples()
    ensures IntToIppOperation(0x1_0008) == CancelJob
    ensures IntToIppOperation(0x10) == PausePrinter
    ensures IntToIppOperation(0xFFFF).code == -1
  {
  }

  /** The enumerations registered with a plain (T)src cast. */
  datatype EnumKind =
    | Finishings | IppStatusCode | JobState | Orientation
    | PrinterState | PrintQuality | ResolutionUnit | PrinterType

  /** A value of one of those enumerations: its kind and its underlying int. */
  datatype IntEnum = IntEnum(kind: EnumKind, code: Int32)

  /** int -> T for each kind above: an unchecked cast that never fails. */
  function CastToEnum(kind: EnumKind, src: Int32): (e: IntEnum)
    ensures e.kind == kind
    ensures e.code == src
  {
    IntEnum(kind, src)
  }

  /** (int)e: the underlying value of an enumeration value. */
  function EnumToInt(e: IntEnum): Int32
  {
    e.code
  }

  /** The job states named in section 4.3.7 of RFC 2911: pending (3) through completed (9). */
  predicate IsDefinedJobState(code: int)
  {
    3 <= code <= 9
  }

  /** The cast is a bijection between ints and values of each kind, undefined codes included. */
  lemma CastToEnumRoundTrip(kind: EnumKind, n: Int32, e: IntEnum)
    ensures EnumToInt(CastToEnum(kind, n)) == n
    ensures e.kind == kind ==> CastToEnum(kind, EnumToInt(e)) == e
  {
  }

  // ---------------------------------------------------------------------------
  // NoValue and language-tagged strings
  // ---------------------------------------------------------------------------

  /** The IPP out-of-band 'no-value'. */
  datatype NoValue = NoValue

  /** NoValue -> int. */
  function NoValueToInt(src: NoValue): (r: Int32)
    ensures r == 0
  {
    0
  }

  /** NoValue -> JobState: the cast of 0, which names none of the job states. */
  function NoValueToJobState(src: NoValue): (r: IntEnum)
    ensures r == CastToEnum(JobState, 0)
    ensures !IsDefinedJobState(r.code)
  {
    IntEnum(JobState, 0)
  }

  /** StringWithLanguage -> string: the value, without its language. */
  function StringWithLanguageToString(src: StringWithLanguage): (r: string)
    ensures r == src.value
  {
    src.value
  }

  /** string -> StringWithLanguage?: always null. */
  function StringToStringWithLanguage(src: string): (r: Option<StringWithLanguage>)
    ensures r == None
  {
    None
  }

  /**
   * Two language-tagged strings give the same plain string exactly when their
   * values agree; the plain string never converts back to a tagged one.
   */
  lemma LanguageIsDropped(a: StringWithLanguage, b: StringWithLanguage, s: string)
    ensures StringWithLanguageToString(a) == StringWithLanguageToString(b) <==> a.value == b.value
    ensures StringToStringWithLanguage(s).None?
  {
  }

  // ---------------------------------------------------------------------------
  // Keyword-backed enumerations (IPP 'keyword' syntax, section 4.1.3 of RFC 2911)
  // ---------------------------------------------------------------------------

  const UnsupportedName := "Unsupported"

  /**
   * A keyword-backed enumeration registered through ConfigureKeyword (JobHoldUntil,
   * Sides, MediaSource and fifteen more): its variant names in declaration order.
   * As in any C# enumeration the names are distinct, and every registered one
   * declares an Unsupported variant, which the registration passes as default.
   */
  datatype KeywordEnum = KeywordEnum(variants: seq<string>) {
    ghost predicate Valid()
    {
      && (forall i, j :: 0 <= i < j < |variants| ==> variants[i] != variants[j])
      && UnsupportedName in variants
    }
  }

  /** The string extensions ConvertDashToCamelCase and ConvertCamelCaseToDash. */
  datatype CaseConversion = CaseConversion(dashToCamel: string -> string, camelToDash: string -> string)

  /** The first position of `name` among `names`: the case-sensitive name lookup of Enum.TryParse. */
  function FindVariant(names: seq<string>, name: string): (r: Option<nat>)
    ensures r.None? <==> name !in names
    ensures r.Some? ==> r.value < |names| && names[r.value] == name
    ensures r.Some? ==> forall j :: 0 <= j < r.value ==> names[j] != name
  {
    if names == [] then None
    else if names[0] == name then Some(0)
    else match FindVariant(names[1..], name)
      case None => None
      case Some(i) => Some(i + 1)
  }

  /** The position of the Unsupported variant. */
  function UnsupportedOf(e: KeywordEnum): (i: nat)
    requires e.Valid()
    ensures i < |e.variants| && e.variants[i] == UnsupportedName
  {
    FindVariant(e.variants, UnsupportedName).value
  }

  /**
   * string -> T of ConfigureKeyword: the variant named by the camel-case form of
   * `src`, matched case-sensitively, or `defaultValue` when no name matches.
   */
  function KeywordToEnum(e: KeywordEnum, conv: CaseConversion, defaultValue: nat, src: string): (v: nat)
    requires e.Valid() && defaultValue < |e.variants|
    ensures v < |e.variants|
    ensures conv.dashToCamel(src) in e.variants ==> e.variants[v] == conv.dashToCamel(src)
    ensures conv.dashToCamel(src) !in e.variants ==> v == defaultValue
  {
    match FindVariant(e.variants, conv.dashToCamel(src))
    case Some(i) => i
    case None => defaultValue
  }

  /**
   * T -> string of ConfigureKeyword: the variant's name in dash case. When the
   * case helpers bring that name back, the registered decoder maps the keyword
   * to the variant again.
   */
  function EnumToKeyword(e: KeywordEnum, conv: CaseConversion, v: nat): (k: string)
    requires e.Valid() && v < |e.variants|
    ensures conv.dashToCamel(conv.camelToDash(e.variants[v])) == e.variants[v] ==> DecodeKeyword(e, conv, k) == v
  {
    conv.camelToDash(e.variants[v])
  }

  /**
   * string -> T as registered, with the enumeration's Unsupported variant as
   * default. Decoding never fails: it yields the Unsupported variant exactly
   * when the camel-case form of the input names no variant or names Unsupported
   * itself, and otherwise the variant of that name.
   */
  function DecodeKeyword(e: KeywordEnum, conv: CaseConversion, src: string): (v: nat)
    requires e.Valid()
    ensures v < |e.variants|
    ensures e.variants[v] == UnsupportedName <==> conv.dashToCamel(src) !in e.variants || conv.dashToCamel(src) == UnsupportedName
    ensures conv.dashToCamel(src) in e.variants ==> e.variants[v] == conv.dashToCamel(src)
  {
    KeywordToEnum(e, conv, UnsupportedOf(e), src)
  }

  /**
   * Encoding a variant and decoding the keyword gives the variant back, for any
   * default, provided the two case helpers are inverse on that variant's name.
   */
  lemma KeywordRoundTrip(e: KeywordEnum, conv: CaseConversion, defaultValue: nat, v: nat)
    requires e.Valid() && defaultValue < |e.variants| && v < |e.variants|
    requires conv.dashToCamel(conv.camelToDash(e.variants[v])) == e.variants[v]
    ensures KeywordToEnum(e, conv, defaultValue, EnumToKeyword(e, conv, v)) == v
  {
    var w := KeywordToEnum(e, conv, defaultValue, EnumToKeyword(e, conv, v));
    assert e.variants[w] == e.variants[v];
  }

  /** Under the same assumption for every variant, distinct variants get distinct keywords. */
  lemma EnumToKeywordInjective(e: KeywordEnum, conv: CaseConversion, v: nat, w: nat)
    requires e.Valid() && v < |e.variants| && w < |e.variants|
    requires forall i :: 0 <= i < |e.variants| ==> conv.dashToCamel(conv.camelToDash(e.variants[i])) == e.variants[i]
    ensures EnumToKeyword(e, conv, v) == EnumToKeyword(e, conv, w) <==> v == w
  {
    if EnumToKeyword(e, conv, v) == EnumToKeyword(e, conv, w) {
      KeywordRoundTrip(e, conv, v, v);
      KeywordRoundTrip(e, conv, v, w);
    }
  }
}

=== FILE: wrappers.dfy ===
/** Optional values, standing in for C#'s nullable references. */
module Wrappers {

  datatype Option<+T> = None | Some(value: T)

}
